=== FILE: README.md ===
# Weather tool server: tool-call dispatcher

A Dafny model of the request handlers of a small Model Context Protocol
server that exposes one tool, `weatherTool`. The "list tools" handler
advertises that one tool. The "call tool" handler does four things:

- it routes the call by tool name;
- it parses the arguments against the `{ location: string }` schema;
- it runs the tool's `execute` with the parsed location;
- it turns every outcome into one response envelope
  `{ content: [{ type: "text", text }], isError? }`.

There are four outcomes:

- success: the serialized result, with no `isError` field;
- unknown tool: `Unknown tool: <name>`;
- invalid arguments: `Invalid arguments: ` followed by the `path: message` of
  every schema issue, joined with `", "`;
- any other failure: `Error: ` followed by the error's message, or by its
  string form when the thrown value is not an `Error`.

Files:

- `wrappers.dfy`: `Option`, used for the `isError` field.
- `strings.dfy`: `Array.prototype.join` over strings, and the decimal text
  of a numeric path segment. It proves where each part lands in the joined
  text and that decimal text and value round-trip.
- `zod.dfy`: the schema library's issues, the parse result, and the
  validation-error formatter.
- `errors.dfy`: thrown values and how a call ends (it returns or it throws).
- `dispatcher.dfy`: the handlers. `TryBlock` is the body of the source's
  `try`, `Catch` is its `catch`, `Render` builds the envelope, and
  `Dispatch = Render ∘ Run`. One lemma covers each path, and `Read` decodes
  an envelope back into its outcome.
- `scenarios.dfy`: three concrete calls (no location, an unknown name, Paris).

The schema parser, `JSON.stringify`, `String(x)` and the tool's `execute`
are parameters of `Dispatch`. Their behaviour lives in libraries and modules
outside this model. `execute` is `None` when the tool or its `execute` is
missing.

Facts about the code that the model keeps:

- A successful response leaves `isError` out; it is never `false`. The
  model writes the absent field as `None`.
- The `catch` checks only the kind of the thrown value. A schema error
  thrown by the tool itself, when it is an instance of the same
  `z.ZodError` class the server imports, is therefore reported as
  `Invalid arguments: …` (`ToolSchemaErrorResponse`).
- `JSON.stringify` runs inside the `try`. A serializer that throws is
  reported by the kind of what it threw (`SerializerFailureResponse`).

## Model

| member | source | states |
|---|---|---|
| Dispatcher.Dispatch | src/mcp/index.ts:46-121 | every call yields exactly one envelope with exactly one text block; `isError` is either absent or true, never false; an unrouted name always sets it |
| Dispatcher.TryBlock | src/mcp/index.ts:48-90 | the `try` body returns the unknown-tool answer exactly for names other than `weatherTool`; for `weatherTool` a rejected parse throws the schema error with the parser's issues, a missing tool throws `Error("weatherTool is not defined")`, and it completes only when the parse succeeded, the tool exists and returned, and its result serialized to that text |
| Dispatcher.HandlerInput | src/mcp/index.ts:56-61 | the tool is called with `context.location` equal to the parsed location and an empty container |
| Dispatcher.ListTools | src/mcp/index.ts:36-44 | the advertised list has exactly one entry, `weatherTool`, with the given description and input schema; no other name is advertised |
| Errors.Describe | src/mcp/index.ts:115 | a thrown `Error` is described by its message, any other thrown value by its string form |
| Dispatcher.Run | src/mcp/index.ts:50-76 | the outcome is "unknown tool" exactly when the name is not `weatherTool`, and then it carries the requested name |
| Dispatcher.Catch | src/mcp/index.ts:91-120 | a schema error, and only a schema error, becomes "invalid arguments" with the same issues; an `Error` is described by its message; a non-`Error` value by its string form |
| Dispatcher.Render | src/mcp/index.ts:66-119 | every envelope has one block of type "text"; `isError` is absent exactly for success and otherwise true |
| Dispatcher.UnknownToolResponse | src/mcp/index.ts:64-75 | any name other than `weatherTool` gets `Unknown tool: <name>` with `isError` true, whatever the parser, serializer or tool would do |
| Dispatcher.InvalidArgumentsResponse | src/mcp/index.ts:93-107 | rejected arguments get `Invalid arguments: ` plus the formatted issue list with `isError` true; the tool does not appear in the result |
| Dispatcher.ValidationGuardsTool | src/mcp/index.ts:52-56 | parsing comes first: when it fails, any two tools (present or missing) give the same response |
| Dispatcher.MissingToolResponse | src/mcp/index.ts:53-54 | valid arguments and a missing tool give `Error: weatherTool is not defined` with `isError` true |
| Dispatcher.SuccessResponse | src/mcp/index.ts:83-90 | a result that serializes is sent as exactly that text, with no `isError` field |
| Dispatcher.ToolFailureResponse | src/mcp/index.ts:110-119 | a non-schema failure thrown by the tool gives `Error: ` plus the `Error`'s message, or plus `String(value)` for a non-`Error` value, with `isError` true |
| Dispatcher.ToolSchemaErrorResponse | src/mcp/index.ts:91-107 | a schema error thrown by the tool, with any issues at all, gets `Invalid arguments: ` plus those issues' formatted text with `isError` true |
| Dispatcher.ToolSchemaErrorReportedAsInvalid | src/mcp/index.ts:91-108 | a schema error thrown by the tool gets the same response as arguments the parser rejects with the same issues |
| Dispatcher.SerializerFailureResponse | src/mcp/index.ts:83-119 | a tool result whose serialization throws gets `Error: ` plus the thrown value's description with `isError` true, or `Invalid arguments: ` plus the issues when a schema error was thrown |
| Dispatcher.ToolSeesValidatedLocation | src/mcp/index.ts:56-61 | the tool is consulted only on the parsed location: two tools that agree on that input give the same response |
| Dispatcher.SuccessExactly | src/mcp/index.ts:83-119 | `isError` is absent if and only if the name is `weatherTool`, the arguments parse, the tool exists, returns, and its result serializes |
| Dispatcher.AdvertisedIffRouted | src/mcp/index.ts:36-44 | a name is in the advertised tool list if and only if a call to it is not answered as unknown |
| Dispatcher.ReadRender | src/mcp/index.ts:66-119 | each envelope decodes back to its outcome's kind; the tool name, failure description, success text and formatted issue text are recovered exactly |
| Dispatcher.RenderInjective | src/mcp/index.ts:66-119 | two outcomes other than invalid arguments that give equal envelopes are equal |
| Zod.ReportsEveryIssue | src/mcp/index.ts:103 | every issue's `path: message` text appears unchanged at its offset in collection order, followed by `", "` unless it is the last |
| Zod.IssuesTextLength | src/mcp/index.ts:103 | the issue list text is as long as the issue texts plus one `", "` between neighbours; no issues give the empty text and one issue gives its own text |
| Zod.IssueTextParts | src/mcp/index.ts:103 | an issue's text is its dotted path, then `": "`, then its message, each found at its position |
| Zod.PathTextShape | src/mcp/index.ts:103 | a path is written as its segments with one `"."` between neighbours; an empty path gives the empty text |
| Zod.SegmentText | src/mcp/index.ts:103 | a key segment is written as itself; an index segment as a canonical decimal numeral denoting that index |
| Zod.SingleKeyPath | src/mcp/index.ts:103 | a one-key path is written as the key alone |
| Strings.JoinPlacesParts | src/mcp/index.ts:103 | `join` places every part unchanged at its offset, a separator after each part but the last, and the last part ends the text |
| Strings.JoinLength | src/mcp/index.ts:103 | the joined text is as long as the parts plus one separator between neighbours |
| Strings.JoinSnoc | src/mcp/index.ts:103 | appending a part extends the joined text by the separator and that part |
| Strings.JoinLeft | src/mcp/index.ts:103 | the left-to-right loop that `join` performs computes the joined text |
| Strings.Decimal | src/mcp/index.ts:103 | the text of a numeric path segment is a canonical decimal numeral: digits only, no leading zero except for 0 |
| Strings.DecimalRoundTrip | src/mcp/index.ts:103 | reading back the decimal text of a number gives the number |
| Strings.DecimalOfValue | src/mcp/index.ts:103 | every canonical numeral is the decimal text of its value, so distinct indices never print alike |
| Scenarios.MissingLocation | src/mcp/index.ts:52-107 | a call with no `location` yields `Invalid arguments: location: Required` with `isError` true |
| Scenarios.UnknownName | src/mcp/index.ts:64-75 | a call to `doesNotExist` yields `Unknown tool: doesNotExist` with `isError` true |
| Scenarios.ParisWeather | src/mcp/index.ts:52-90 | a call for Paris passes "Paris" to the tool and returns the serialized result with no `isError` field |

## Left out

- Server construction, capabilities, the stdio transport, `runServer` and
  `process.exit` (src/mcp/index.ts:15-26, 123-132): transport and process
  plumbing with no effect on a response.
- The logger binding and every `logger.*` call (src/mcp/index.ts:29, 65,
  79-82, 94-98, 110): the logger's code is not part of this model, and its
  methods are assumed not to throw synchronously. `void` only discards the
  returned promise. A synchronous throw at line 65 or 79 would turn the
  unknown-tool or success response into `Error: …`. A throw at line 94 or
  110 would make the handler's promise reject, so no tool-result envelope
  is sent.
- The reply the protocol layer sends when the handler's promise rejects
  (src/mcp/index.ts:46 only registers the handler with the server): the
  server library's code is not part of this model. The model only records
  that no tool-result envelope is produced.
- Timing with `Date.now()` and the duration strings (src/mcp/index.ts:47, 78,
  92): these values only go into log records. No clock is modelled.
- The schema library's parsing rules and default messages, and the JSON
  Schema conversion of the input schema: library behaviour. The parser is
  a parameter, and `ListTools` takes the converted schema as a parameter.
- `JSON.stringify` internals: it is a parameter that returns a text or
  throws. A `JSON.stringify` that returns `undefined` (for an `undefined`
  result) is not modelled. In that case the source would send a text block
  without text.
- The weather tool's implementation, which does network work, is not part
  of this model. Its asynchronous `execute` is modelled as a synchronous
  function that returns or throws.
- The `container` passed to `execute` is always empty. The model gives it
  the type `map<string, string>` because its real element type is erased
  (`as any`).
- Zod.SegmentText: numeric path segments are modelled as non-negative
  integers. JavaScript's exponent notation for numbers of 10^21 and above,
  and non-integer numbers, are not modelled. The schema library only puts
  array indices there.
- Dispatcher.Dispatch: the conversions inside the `catch` clause are
  assumed not to throw. In JavaScript, `String(value)` throws for an object
  without a usable `toString` (for example one made by
  `Object.create(null)`), and the template literal throws when an `Error`'s
  `message` is a Symbol. Then src/mcp/index.ts:115 throws inside the `catch`,
  the handler's promise rejects, and no envelope is sent. The model's `show`
  is total and `message` is a string, so it always yields an envelope.
- Dispatcher.AdvertisedIffRouted: the "list tools" handler is assumed to
  find the tool object. Line 40 reads `weatherTool.description` without a
  guard, so when the imported tool is undefined the list request throws and
  nothing is advertised. A call to `weatherTool` is still routed and gets
  `Error: weatherTool is not defined` (the model's `execute = None`). In that
  case the lemma's claim that the advertised names are the routed ones does
  not describe the program.
- Idempotence of a repeated call with a deterministic tool holds trivially,
  because `Dispatch` is a pure function of its inputs. It has no separate
  lemma.

=== FILE: dispatcher.dfy ===
/** The tool-call dispatcher of the weather server: the handler it installs
    for "list tools" requests, which advertises a single tool, and the
    handler for "call tool" requests, which routes by tool name, validates
    the arguments, runs the tool and turns every outcome into one response
    envelope.

    The "call tool" handler is written as the source writes it: `TryBlock`
    is the body of its `try` (which either finishes with a text, returns the
    unknown-tool response early, or throws), `Catch` is its `catch` clause,
    and `Render` builds the response object. Logging and timing have no
    effect on the response and are not part of the model. */
module Dispatcher {
  import opened Wrappers
  import opened Zod
  import opened Errors

  /* ---------------------------------------------------------------------- */
  /* Constants                                                               */
  /* ---------------------------------------------------------------------- */

  /** The one tool the server knows. */
  const WeatherToolName: string := "weatherTool"

  const MissingToolMessage: string := "weatherTool is not defined"
  const UnknownToolPrefix: string := "Unknown tool: "
  const InvalidArgumentsPrefix: string := "Invalid arguments: "
  const ErrorPrefix: string := "Error: "

  /* ---------------------------------------------------------------------- */
  /* Data model                                                              */
  /* ---------------------------------------------------------------------- */

  /** A content block of a response. This server only sends text blocks, so
      `TextBlock` is the only kind of block the model has and its type is
      "text" by construction. */
  datatype ContentBlock = TextBlock(text: string) {
    function Type(): string { "text" }
  }

  /** The response object of a tool call. `isError` is a field that the
      success response leaves out altogether, hence an `Option`. */
  datatype Envelope = Envelope(content: seq<ContentBlock>, isError: Option<bool>)

  /** An entry of the "list tools" answer. `S` is the JSON-schema form of
      the input schema, produced by a library the model does not look into. */
  datatype ToolDescriptor<S> = ToolDescriptor(name: string, description: string, inputSchema: S)

  /** What the weather tool's `execute` receives: the validated location,
      and an empty container. */
  datatype ExecutionContext = ExecutionContext(location: string)
  datatype ToolInput = ToolInput(context: ExecutionContext, container: map<string, string>)

  /** The libraries the dispatcher calls and the model leaves abstract:
      parsing `A`-typed raw arguments against the `{ location: string }`
      schema, `JSON.stringify` of a tool result of type `V` (which may
      throw, for instance on a cyclic value), and `String(x)` of a thrown
      non-`Error` value. */
  datatype Library<-A, -V, !X> = Library(
    parse: A -> Validation,
    stringify: V -> Completion<string, X>,
    show: X -> string)

  /** How the body of the `try` block ends. */
  datatype Attempt<X> =
    | Completed(text: string)
    | ReturnedUnknown(name: string)
    | Threw(thrown: Thrown<X>)

  /** The four outcomes of a call, each of which becomes one envelope. */
  datatype Outcome =
    | Success(text: string)
    | UnknownTool(name: string)
    | InvalidArguments(issues: seq<Issue>)
    | Failed(description: string)

  /* ---------------------------------------------------------------------- */
  /* "list tools"                                                            */
  /* ---------------------------------------------------------------------- */

  /** Whether some entry of a tool list carries `name`. */
  predicate Advertised<S>(tools: seq<ToolDescriptor<S>>, name: string) {
    exists k :: 0 <= k < |tools| && tools[k].name == name
  }

  /** The advertised tools: the weather tool alone, with the tool's own
      description and the JSON-schema form of its input schema. */
  function ListTools<S>(description: string, inputSchema: S): (tools: seq<ToolDescriptor<S>>)
    ensures |tools| == 1 && tools[0].name == WeatherToolName
    ensures forall name :: Advertised(tools, name) <==> name == WeatherToolName
    ensures forall k :: 0 <= k < |tools| ==>
              tools[k].description == description && tools[k].inputSchema == inputSchema
  {
    var tools := [ToolDescriptor(WeatherToolName, description, inputSchema)];
    assert Advertised(tools, WeatherToolName) by {
      assert tools[0].name == WeatherToolName;
    }
    tools
  }

  /* ---------------------------------------------------------------------- */
  /* "call tool"                                                             */
  /* ---------------------------------------------------------------------- */

  /** The argument the tool is called with. */
  function HandlerInput(location: string): (input: ToolInput)
    ensures input.context.location == location
    ensures input.container == map[]
  {
    ToolInput(ExecutionContext(location), map[])
  }

  /** The body of the `try` block. `execute` is the weather tool's
      `execute` function, `None` when the tool or its `execute` is
      missing. Arguments are parsed first; the tool runs only on parsed
      arguments; its result is then serialized. */
  function TryBlock<A, V, X>(name: string, args: A, lib: Library<A, V, X>,
                             execute: Option<ToolInput -> Completion<V, X>>): (r: Attempt<X>)
    ensures r.ReturnedUnknown? <==> name != WeatherToolName
    ensures r.ReturnedUnknown? ==> r.name == name
    ensures name == WeatherToolName && lib.parse(args).Invalid? ==>
              r == Threw(ZodError(lib.parse(args).issues))
    ensures name == WeatherToolName && lib.parse(args).Valid? && execute.None? ==>
              r == Threw(Error(MissingToolMessage))
    ensures r.Completed? ==>
              && lib.parse(args).Valid?
              && execute.Some?
              && execute.value(HandlerInput(lib.parse(args).location)).Returns?
              && lib.stringify(execute.value(HandlerInput(lib.parse(args).location)).value) == Returns(r.text)
  {
    if name != WeatherToolName then ReturnedUnknown(name)
    else
      match lib.parse(args)
      case Invalid(issues) => Threw(ZodError(issues))
      case Valid(location) =>
        match execute
        case None => Threw(Error(MissingToolMessage))
        case Some(run) =>
          match run(HandlerInput(location))
          case Throws(t) => Threw(t)
          case Returns(result) =>
            match lib.stringify(result)
            case Throws(t) => Threw(t)
            case Returns(text) => Completed(text)
  }

  /** The `catch` clause: a schema error is reported as invalid arguments,
      whatever threw it; anything else is a failure described by its
      message or its string form. */
  function Catch<X>(t: Thrown<X>, show: X -> string): (o: Outcome)
    ensures o.InvalidArguments? <==> t.ZodError?
    ensures t.ZodError? ==> o.issues == t.issues
    ensures o.Failed? <==> !t.ZodError?
    ensures t.Error? ==> o.description == t.message
    ensures t.NonError? ==> o.description == show(t.value)
  {
    match t
    case ZodError(issues) => InvalidArguments(issues)
    case _ => Failed(Describe(t, show))
  }

  /** The outcome of a call: how the `try` block ended, classified. */
  function Run<A, V, X>(name: string, args: A, lib: Library<A, V, X>,
                        execute: Option<ToolInput -> Completion<V, X>>): (o: Outcome)
    ensures o.UnknownTool? <==> name != WeatherToolName
    ensures o.UnknownTool? ==> o.name == name
  {
    match TryBlock(name, args, lib, execute)
    case Completed(text) => Success(text)
    case ReturnedUnknown(n) => UnknownTool(n)
    case Threw(t) => Catch(t, lib.show)
  }

  /** The response object for an outcome: one text block, and `isError`
      set to true on every outcome but success, where it is left out. */
  function Render(o: Outcome): (e: Envelope)
    ensures |e.content| == 1 && e.content[0].Type() == "text"
    ensures e.isError == None <==> o.Success?
    ensures e.isError != Some(false)
  {
    match o
    case Success(text) => Envelope([TextBlock(text)], None)
    case UnknownTool(name) => Envelope([TextBlock(UnknownToolPrefix + name)], Some(true))
    case InvalidArguments(issues) =>
      Envelope([TextBlock(InvalidArgumentsPrefix + IssuesText(issues))], Some(true))
    case Failed(description) => Envelope([TextBlock(ErrorPrefix + description)], Some(true))
  }

  /** The "call tool" handler: exactly one response per call, with exactly
      one text block, and `isError` never explicitly false. */
  function Dispatch<A, V, X>(name: string, args: A, lib: Library<A, V, X>,
                             execute: Option<ToolInput -> Completion<V, X>>): (e: Envelope)
    ensures |e.content| == 1 && e.content[0].Type() == "text"
    ensures e.isError == Some(true) || e.isError == None
    ensures name != WeatherToolName ==> e.isError == Some(true)
  {
    Render(Run(name, args, lib, execute))
  }

  /* ---------------------------------------------------------------------- */
  /* One lemma per path through the handler                                  */
  /* ---------------------------------------------------------------------- */

  /** Any name but the weather tool's is answered as unknown, whatever the
      arguments, parser, serializer or tool would do: none is consulted. */
  lemma UnknownToolResponse<A, V, X>(name: string, args: A, lib: Library<A, V, X>,
                                     execute: Option<ToolInput -> Completion<V, X>>)
    requires name != WeatherToolName
    ensures Dispatch(name, args, lib, execute)
            == Envelope([TextBlock(UnknownToolPrefix + name)], Some(true))
  {
  }

  /** Arguments the schema rejects are reported issue by issue, and the
      tool is not consulted: the response does not depend on `execute`. */
  lemma InvalidArgumentsResponse<A, V, X>(args: A, lib: Library<A, V, X>,
                                          execute: Option<ToolInput -> Completion<V, X>>)
    requires lib.parse(args).Invalid?
    ensures Dispatch(WeatherToolName, args, lib, execute)
            == Envelope([TextBlock(InvalidArgumentsPrefix + IssuesText(lib.parse(args).issues))], Some(true))
  {
  }

  /** Validation runs before the tool: when it fails, any two tools give
      the same response. */
  lemma ValidationGuardsTool<A, V, X>(args: A, lib: Library<A, V, X>,
                                      execute1: Option<ToolInput -> Completion<V, X>>,
                                      execute2: Option<ToolInput -> Completion<V, X>>)
    requires lib.parse(args).Invalid?
    ensures Dispatch(WeatherToolName, args, lib, execute1) == Dispatch(WeatherToolName, args, lib, execute2)
  {
  }

  /** Valid arguments and a missing tool give the "not defined" failure. */
  lemma MissingToolResponse<A, V, X>(args: A, lib: Library<A, V, X>)
    requires lib.parse(args).Valid?
    ensures Dispatch(WeatherToolName, args, lib, None)
            == Envelope([TextBlock(ErrorPrefix + MissingToolMessage)], Some(true))
  {
  }

  /** A tool result that serializes is sent as that text alone, with no
      `isError` field. */
  lemma SuccessResponse<A, V, X>(args: A, lib: Library<A, V, X>, run: ToolInput -> Completion<V, X>,
                                 result: V, text: string)
    requires lib.parse(args).Valid?
    requires run(HandlerInput(lib.parse(args).location)) == Returns(result)
    requires lib.stringify(result) == Returns(text)
    ensures Dispatch(WeatherToolName, args, lib, Some(run)) == Envelope([TextBlock(text)], None)
  {
  }

  /** A failure thrown by the tool, other than a schema error, is reported
      as "Error: " and its description. */
  lemma ToolFailureResponse<A, V, X>(args: A, lib: Library<A, V, X>, run: ToolInput -> Completion<V, X>,
                                     t: Thrown<X>)
    requires lib.parse(args).Valid?
    requires run(HandlerInput(lib.parse(args).location)) == Throws(t)
    requires !t.ZodError?
    ensures t.Error? ==> Dispatch(WeatherToolName, args, lib, Some(run))
                         == Envelope([TextBlock(ErrorPrefix + t.message)], Some(true))
    ensures t.NonError? ==> Dispatch(WeatherToolName, args, lib, Some(run))
                            == Envelope([TextBlock(ErrorPrefix + lib.show(t.value))], Some(true))
  {
  }

  /** A schema error thrown by the tool itself, whatever its issues, is
      reported as invalid arguments with those issues. */
  lemma ToolSchemaErrorResponse<A, V, X>(args: A, lib: Library<A, V, X>,
                                         run: ToolInput -> Completion<V, X>,
                                         issues: seq<Issue>)
    requires lib.parse(args).Valid?
    requires run(HandlerInput(lib.parse(args).location)) == Throws(ZodError(issues))
    ensures Dispatch(WeatherToolName, args, lib, Some(run))
            == Envelope([TextBlock(InvalidArgumentsPrefix + IssuesText(issues))], Some(true))
  {
  }

  /** The `catch` looks only at the kind of what was thrown, not at who
      threw it: a schema error thrown by the tool is reported exactly like
      arguments the parser rejects with the same issues. */
  lemma ToolSchemaErrorReportedAsInvalid<A, V, X>(args: A, lib: Library<A, V, X>,
                                                  run: ToolInput -> Completion<V, X>,
                                                  issues: seq<Issue>, rejected: A,
                                                  execute: Option<ToolInput -> Completion<V, X>>)
    requires lib.parse(args).Valid?
    requires run(HandlerInput(lib.parse(args).location)) == Throws(ZodError(issues))
    requires lib.parse(rejected) == Invalid(issues)
    ensures Dispatch(WeatherToolName, args, lib, Some(run))
            == Dispatch(WeatherToolName, rejected, lib, execute)
  {
  }

  /** `JSON.stringify` runs inside the `try` block: a result that fails to
      serialize is reported by the `catch` clause like a failure of the
      tool itself, by its kind. */
  lemma SerializerFailureResponse<A, V, X>(args: A, lib: Library<A, V, X>,
                                           run: ToolInput -> Completion<V, X>,
                                           result: V, t: Thrown<X>)
    requires lib.parse(args).Valid?
    requires run(HandlerInput(lib.parse(args).location)) == Returns(result)
    requires lib.stringify(result) == Throws(t)
    ensures !t.ZodError? ==> Dispatch(WeatherToolName, args, lib, Some(run))
                             == Envelope([TextBlock(ErrorPrefix + Describe(t, lib.show))], Some(true))
    ensures t.ZodError? ==> Dispatch(WeatherToolName, args, lib, Some(run))
                            == Envelope([TextBlock(InvalidArgumentsPrefix + IssuesText(t.issues))], Some(true))
  {
  }

  /** The tool sees only the validated location: two tools that agree on
      that one input give the same response. */
  lemma ToolSeesValidatedLocation<A, V, X>(args: A, lib: Library<A, V, X>,
                                           run1: ToolInput -> Completion<V, X>,
                                           run2: ToolInput -> Completion<V, X>)
    requires lib.parse(args).Valid?
    requires run1(HandlerInput(lib.parse(args).location)) == run2(HandlerInput(lib.parse(args).location))
    ensures Dispatch(WeatherToolName, args, lib, Some(run1)) == Dispatch(WeatherToolName, args, lib, Some(run2))
  {
  }

  /** `isError` is left out exactly when the weather tool was asked for,
      the arguments parsed, the tool exists, ran without throwing and its
      result serialized. */
  lemma SuccessExactly<A, V, X>(name: string, args: A, lib: Library<A, V, X>,
                                execute: Option<ToolInput -> Completion<V, X>>)
    ensures Dispatch(name, args, lib, execute).isError == None
            <==> && name == WeatherToolName
                 && lib.parse(args).Valid?
                 && execute.Some?
                 && execute.value(HandlerInput(lib.parse(args).location)).Returns?
                 && lib.stringify(execute.value(HandlerInput(lib.parse(args).location)).value).Returns?
  {
  }

  /** The names the server advertises are exactly the names it routes. */
  lemma AdvertisedIffRouted<S, A, V, X>(description: string, inputSchema: S, name: string, args: A,
                                        lib: Library<A, V, X>,
                                        execute: Option<ToolInput -> Completion<V, X>>)
    ensures Advertised(ListTools(description, inputSchema), name)
            <==> !Run(name, args, lib, execute).UnknownTool?
  {
    var tools := ListTools(description, inputSchema);
    if name == WeatherToolName {
      assert tools[0].name == name;
    }
  }

  /* ---------------------------------------------------------------------- */
  /* Reading a response back                                                 */
  /* ---------------------------------------------------------------------- */

  /** What a client can tell from a response: the kind of outcome and its
      text with the fixed prefix removed. */
  datatype Reading =
    | ReadSuccess(text: string)
    | ReadUnknownTool(name: string)
    | ReadInvalidArguments(detail: string)
    | ReadFailure(description: string)
    | Unreadable

  predicate HasPrefix(s: string, prefix: string) {
    |prefix| <= |s| && s[..|prefix|] == prefix
  }

  /** Decodes a response by its `isError` field and the prefix of its
      one text block. */
  function Read(e: Envelope): Reading {
    if |e.content| != 1 then Unreadable
    else
      var t := e.content[0].text;
      match e.isError
      case None => ReadSuccess(t)
      case Some(flag) =>
        if !flag then Unreadable
        else if HasPrefix(t, UnknownToolPrefix) then ReadUnknownTool(t[|UnknownToolPrefix|..])
        else if HasPrefix(t, InvalidArgumentsPrefix) then ReadInvalidArguments(t[|InvalidArgumentsPrefix|..])
        else if HasPrefix(t, ErrorPrefix) then ReadFailure(t[|ErrorPrefix|..])
        else Unreadable
  }

  /** What a response is meant to convey about its outcome. The issue list
      is conveyed only as formatted text. */
  function Summary(o: Outcome): Reading {
    match o
    case Success(text) => ReadSuccess(text)
    case UnknownTool(name) => ReadUnknownTool(name)
    case InvalidArguments(issues) => ReadInvalidArguments(IssuesText(issues))
    case Failed(description) => ReadFailure(description)
  }

  /** Every response reads back as its outcome: the kind is never
      confused, and the tool name, failure description and success text
      are recovered exactly. */
  lemma ReadRender(o: Outcome)
    ensures Read(Render(o)) == Summary(o)
  {
    var t := Render(o).content[0].text;
    match o
    case Success(_) =>
    case UnknownTool(name) =>
      assert t[..|UnknownToolPrefix|] == UnknownToolPrefix;
    case InvalidArguments(issues) =>
      assert t[0] != UnknownToolPrefix[0];
      assert t[..|InvalidArgumentsPrefix|] == InvalidArgumentsPrefix;
    case Failed(description) =>
      assert t[0] != UnknownToolPrefix[0];
      assert t[0] != InvalidArgumentsPrefix[0];
      assert t[..|ErrorPrefix|] == ErrorPrefix;
  }

  /** Two outcomes other than invalid arguments that give the same
      response are the same outcome. */
  lemma RenderInjective(o1: Outcome, o2: Outcome)
    requires !o1.InvalidArguments? && !o2.InvalidArguments?
    requires Render(o1) == Render(o2)
    ensures o1 == o2
  {
    ReadRender(o1);
    ReadRender(o2);
  }
}

=== FILE: errors.dfy ===
/** Thrown values and the completions of the calls the dispatcher makes
    inside its `try` block. JavaScript can throw anything; the dispatcher
    tells three kinds apart: the schema library's error, any other `Error`
    object, and a value that is not an `Error` at all. */
module Errors {
  import opened Zod

  /** A thrown value. `ZodError` is an instance of the server's own
      `z.ZodError` class (the `instanceof` test is against that class); a
      schema error made by another copy of the library fails that test and
      is an ordinary `Error`. `X` is the type of non-`Error` values that may
      be thrown; the dispatcher only ever turns one of those into a string. */
  datatype Thrown<X> =
    | ZodError(issues: seq<Issue>)
    | Error(message: string)
    | NonError(value: X)

  /** How a call inside the `try` block finishes: with a value, or by
      throwing. An awaited promise that rejects is a throw. */
  datatype Completion<T, X> = Returns(value: T) | Throws(thrown: Thrown<X>)

  /** The description of a failure that is not a schema error: the
      message of an `Error` object, and `String(value)` (here `show`)
      for anything else. A schema error never reaches this point: the
      dispatcher reports it before. */
  function Describe<X>(t: Thrown<X>, show: X -> string): (d: string)
    requires !t.ZodError?
    ensures t.Error? ==> d == t.message
    ensures t.NonError? ==> d == show(t.value)
  {
    match t
    case Error(message) => message
    case NonError(value) => show(value)
  }
}

=== FILE: scenarios.dfy ===
/** Worked calls of the "call tool" handler. Raw arguments are a flat
    string-keyed object; the parser and serializer stand for what the schema
    library and `JSON.stringify` answer on these particular inputs. */
module Scenarios {
  import opened Wrappers
  import opened Zod
  import opened Errors
  import opened Dispatcher

  type RawArgs = map<string, string>

  /** A `{ location: string }` parser that reports a missing location the
      way the schema library words it. */
  function ParseLocation(args: RawArgs): Validation {
    if "location" in args then Valid(args["location"])
    else Invalid([Issue([Key("location")], "Required")])
  }

  /** Calling the weather tool without a location is reported as one
      invalid argument. */
  lemma MissingLocation(stringify: string -> Completion<string, string>,
                        execute: Option<ToolInput -> Completion<string, string>>)
    ensures Dispatch(WeatherToolName, map[], Library(ParseLocation, stringify, (x: string) => x), execute)
            == Envelope([TextBlock("Invalid arguments: location: Required")], Some(true))
  {
    var lib := Library(ParseLocation, stringify, (x: string) => x);
    var issue := Issue([Key("location")], "Required");
    InvalidArgumentsResponse(map[], lib, execute);
    SingleKeyPath("location");
    assert IssueText(issue) == "location" + ": " + "Required";
    assert IssueText(issue) == "location: Required";
    assert IssueTexts([issue]) == [IssueText(issue)];
    assert IssuesText([issue]) == "location: Required";
    assert InvalidArgumentsPrefix + "location: Required" == "Invalid arguments: location: Required";
  }

  /** Calling an unknown tool names it in the response. */
  lemma UnknownName(args: RawArgs, lib: Library<RawArgs, string, string>,
                    execute: Option<ToolInput -> Completion<string, string>>)
    ensures Dispatch("doesNotExist", args, lib, execute)
            == Envelope([TextBlock("Unknown tool: doesNotExist")], Some(true))
  {
    assert "doesNotExist"[0] != WeatherToolName[0];
    UnknownToolResponse("doesNotExist", args, lib, execute);
    assert UnknownToolPrefix + "doesNotExist" == "Unknown tool: doesNotExist";
  }

  /** The weather tool's result in this scenario. */
  datatype Weather = Weather(temperature: int, condition: string)

  /** Asking for Paris's weather: the tool is given "Paris" and the JSON
      text of its result is sent back alone, with no `isError` field. */
  lemma ParisWeather(run: ToolInput -> Completion<Weather, string>,
                     stringify: Weather -> Completion<string, string>)
    requires run(HandlerInput("Paris")) == Returns(Weather(18, "clear"))
    requires stringify(Weather(18, "clear")) == Returns("{\"temperature\":18,\"condition\":\"clear\"}")
    ensures Dispatch(WeatherToolName, map["location" := "Paris"],
                     Library(ParseLocation, stringify, (x: string) => x), Some(run))
            == Envelope([TextBlock("{\"temperature\":18,\"condition\":\"clear\"}")], None)
  {
  }
}

=== FILE: strings.dfy ===
/** The two pieces of JavaScript string building the dispatcher relies on:
    `Array.prototype.join` over strings, and the decimal text of a
    non-negative integer (what `join` produces for a numeric element). */
module Strings {

  /* ---------------------------------------------------------------------- */
  /* Array.prototype.join                                                    */
  /* ---------------------------------------------------------------------- */

  /** `parts.join(sep)`: the parts in order with `sep` between neighbours;
      the empty array joins to the empty string. */
  function Join(parts: seq<string>, sep: string): string
    decreases |parts|
  {
    if |parts| == 0 then ""
    else if |parts| == 1 then parts[0]
    else parts[0] + sep + Join(parts[1..], sep)
  }

  /** Total length of all parts. */
  function SumLengths(parts: seq<string>): nat
    decreases |parts|
  {
    if |parts| == 0 then 0 else |parts[0]| + SumLengths(parts[1..])
  }

  /** Where part `i` starts inside `Join(parts, sep)`: every earlier part
      followed by its separator. */
  function Offset(parts: seq<string>, sep: string, i: nat): nat
    requires i < |parts|
    decreases i
  {
    if i == 0 then 0 else |parts[0]| + |sep| + Offset(parts[1..], sep, i - 1)
  }

  /** `part` occurs in `text` starting at position `o`. */
  predicate PlacedAt(text: string, part: string, o: int) {
    0 <= o && o + |part| <= |text| && text[o .. o + |part|] == part
  }

  /** Slicing a concatenation past its left operand slices the right one. */
  lemma SliceAfterPrefix(a: string, b: string, lo: nat, hi: nat)
    requires lo <= hi <= |b|
    ensures (a + b)[|a| + lo .. |a| + hi] == b[lo .. hi]
  {
  }

  /** The joined text is as long as the parts plus one separator between
      each pair of neighbours. */
  lemma {:induction false} JoinLength(parts: seq<string>, sep: string)
    requires |parts| > 0
    ensures |Join(parts, sep)| == SumLengths(parts) + (|parts| - 1) * |sep|
    decreases |parts|
  {
    if |parts| > 1 {
      JoinLength(parts[1..], sep);
    }
  }

  /** Every part occurs, unchanged and in order, at its offset in the joined
      text; a separator follows each part but the last, and the last part
      ends the text. */
  lemma {:induction false} JoinPlacesParts(parts: seq<string>, sep: string, i: nat)
    requires i < |parts|
    ensures Offset(parts, sep, i) + |parts[i]| <= |Join(parts, sep)|
    ensures Join(parts, sep)[Offset(parts, sep, i) .. Offset(parts, sep, i) + |parts[i]|] == parts[i]
    ensures i + 1 < |parts| ==>
              Offset(parts, sep, i) + |parts[i]| + |sep| <= |Join(parts, sep)| &&
              Join(parts, sep)[Offset(parts, sep, i) + |parts[i]| .. Offset(parts, sep, i) + |parts[i]| + |sep|] == sep
    ensures i + 1 == |parts| ==> Offset(parts, sep, i) + |parts[i]| == |Join(parts, sep)|
    decreases i
  {
    var j := Join(parts, sep);
    if |parts| == 1 {
      assert j == parts[0];
    } else if i == 0 {
      assert j == parts[0] + sep + Join(parts[1..], sep);
      assert j[..|parts[0]|] == parts[0];
      assert j[|parts[0]| .. |parts[0]| + |sep|] == sep;
    } else {
      var rest := parts[1..];
      var head := parts[0] + sep;
      assert j == head + Join(rest, sep);
      JoinPlacesParts(rest, sep, i - 1);
      var o := Offset(rest, sep, i - 1);
      assert Offset(parts, sep, i) == |head| + o;
      assert rest[i - 1] == parts[i];
      SliceAfterPrefix(head, Join(rest, sep), o, o + |parts[i]|);
      if i + 1 < |parts| {
        SliceAfterPrefix(head, Join(rest, sep), o + |parts[i]|, o + |parts[i]| + |sep|);
      }
    }
  }

  /** `JoinPlacesParts` in terms of `PlacedAt`. */
  lemma JoinPlaced(parts: seq<string>, sep: string, i: nat)
    requires i < |parts|
    ensures PlacedAt(Join(parts, sep), parts[i], Offset(parts, sep, i))
    ensures i + 1 < |parts| ==> PlacedAt(Join(parts, sep), sep, Offset(parts, sep, i) + |parts[i]|)
  {
    JoinPlacesParts(parts, sep, i);
  }

  /** Appending a part extends the joined text by one separator and the
      part, which is how `join` builds its result left to right. */
  lemma {:induction false} JoinSnoc(parts: seq<string>, last: string, sep: string)
    requires |parts| > 0
    ensures Join(parts + [last], sep) == Join(parts, sep) + sep + last
    decreases |parts|
  {
    if |parts| == 1 {
      assert parts + [last] == [parts[0], last];
    } else {
      assert (parts + [last])[1..] == parts[1..] + [last];
      JoinSnoc(parts[1..], last, sep);
    }
  }

  /** The left-to-right accumulation `join` performs, as a loop. */
  method JoinLeft(parts: seq<string>, sep: string) returns (r: string)
    ensures r == Join(parts, sep)
    ensures |parts| > 0 ==> |r| == SumLengths(parts) + (|parts| - 1) * |sep|
  {
    if |parts| == 0 {
      return "";
    }
    r := parts[0];
    var i := 1;
    while i < |parts|
      invariant 1 <= i <= |parts|
      invariant r == Join(parts[..i], sep)
      decreases |parts| - i
    {
      JoinSnoc(parts[..i], parts[i], sep);
      assert parts[..i + 1] == parts[..i] + [parts[i]];
      r := r + sep + parts[i];
      i := i + 1;
    }
    assert parts[..i] == parts;
    JoinLength(parts, sep);
  }

  /* ---------------------------------------------------------------------- */
  /* Decimal text of a non-negative integer                                 */
  /* ---------------------------------------------------------------------- */

  predicate IsDigit(c: char) {
    '0' <= c <= '9'
  }

  predicate AllDigits(s: string) {
    forall k :: 0 <= k < |s| ==> IsDigit(s[k])
  }

  /** A decimal numeral as JavaScript writes an integer: at least one digit
      and no leading zero unless the number is zero itself. */
  predicate Canonical(s: string) {
    |s| > 0 && AllDigits(s) && (s[0] == '0' ==> |s| == 1)
  }

  function DigitChar(d: nat): (c: char)
    requires d < 10
    ensures IsDigit(c)
  {
    ['0', '1', '2', '3', '4', '5', '6', '7', '8', '9'][d]
  }

  function DigitValue(c: char): (d: nat)
    requires IsDigit(c)
    ensures d < 10
  {
    c as int - '0' as int
  }

  lemma DigitRoundTrip(d: nat)
    requires d < 10
    ensures DigitValue(DigitChar(d)) == d
    ensures DigitChar(d) == '0' <==> d == 0
  {
  }

  /** The decimal text of `n`, as `String(n)` gives it for a non-negative
      integer below 10^21. */
  function Decimal(n: nat): (s: string)
    ensures Canonical(s)
    ensures s[0] == '0' ==> n == 0
    decreases n
  {
    if n < 10 then [DigitChar(n)] else Decimal(n / 10) + [DigitChar(n % 10)]
  }

  /** The number a string of digits denotes. */
  function DecimalValue(s: string): nat
    requires AllDigits(s)
    decreases |s|
  {
    if |s| == 0 then 0 else DecimalValue(s[..|s| - 1]) * 10 + DigitValue(s[|s| - 1])
  }

  /** Reading back the decimal text of a number gives the number. */
  lemma {:induction false} DecimalRoundTrip(n: nat)
    ensures DecimalValue(Decimal(n)) == n
    decreases n
  {
    DigitRoundTrip(n % 10);
    if n >= 10 {
      var s := Decimal(n);
      assert s[..|s| - 1] == Decimal(n / 10);
      DecimalRoundTrip(n / 10);
    }
  }

  /** Every canonical numeral is the decimal text of the number it denotes,
      so distinct numbers never render alike and no numeral is missed. */
  lemma {:induction false} DecimalOfValue(s: string)
    requires Canonical(s)
    ensures Decimal(DecimalValue(s)) == s
    decreases |s|
  {
    var last := s[|s| - 1];
    DigitRoundTrip(DigitValue(last));
    assert DigitChar(DigitValue(last)) == last;
    if |s| == 1 {
      assert DecimalValue(s) == DigitValue(last) by {
        assert s[..0] == "";
      }
    } else {
      var init := s[..|s| - 1];
      assert Canonical(init) by {
        assert init[0] == s[0];
      }
      DecimalOfValue(init);
      DecimalPositive(init);
      var n := DecimalValue(s);
      assert n == DecimalValue(init) * 10 + DigitValue(last);
      assert n >= 10;
      assert n / 10 == DecimalValue(init);
      assert n % 10 == DigitValue(last);
      assert s == init + [last];
    }
  }

  /** A canonical numeral longer than one digit denotes a positive number. */
  lemma {:induction false} DecimalPositive(s: string)
    requires Canonical(s)
    requires |s| > 1 || s[0] != '0'
    ensures DecimalValue(s) > 0
    decreases |s|
  {
    if |s| == 1 {
      assert s[..0] == "";
      assert DigitValue(s[0]) > 0;
    } else {
      var init := s[..|s| - 1];
      assert init[0] == s[0];
      DecimalPositive(init);
    }
  }
}

=== FILE: wrappers.dfy ===
/** The optional-value datatype used for fields that may be absent from a
    response object, such as the `isError` flag of a tool-call envelope. */
module Wrappers {

  datatype Option<+T> = None | Some(value: T)
}

=== FILE: zod.dfy ===
/** What the dispatcher sees of the schema library: the outcome of parsing
    the arguments against `{ location: string }`, the issues a failed parse
    reports, and the text the dispatcher makes of those issues. How the
    library decides validity, and the messages it writes, are not modelled:
    the parser is a parameter of the dispatcher. */
module Zod {
  import opened Strings

  /** One step of an issue's path: an object key or an array index. */
  datatype PathSegment = Key(name: string) | Index(index: nat)

  /** A single schema violation: where it is and what is wrong. */
  datatype Issue = Issue(path: seq<PathSegment>, message: string)

  /** Result of `schema.parse(arguments)` for the weather tool's schema:
      the typed arguments, or the issues of the thrown schema error. Extra
      argument fields are ignored by the schema, so only `location` is kept. */
  datatype Validation = Valid(location: string) | Invalid(issues: seq<Issue>)

  const PathSeparator: string := "."
  const MessageSeparator: string := ": "
  const IssueSeparator: string := ", "

  /** A path step as `Array.prototype.join` writes it: a key as itself, an
      index as its decimal numeral. */
  function SegmentText(s: PathSegment): (t: string)
    ensures s.Key? ==> t == s.name
    ensures s.Index? ==> Canonical(t) && DecimalValue(t) == s.index
  {
    match s
    case Key(name) => name
    case Index(i) => DecimalRoundTrip(i); Decimal(i)
  }

  function SegmentTexts(path: seq<PathSegment>): (ts: seq<string>)
    ensures |ts| == |path|
    ensures forall k :: 0 <= k < |path| ==> ts[k] == SegmentText(path[k])
  {
    seq(|path|, k requires 0 <= k < |path| => SegmentText(path[k]))
  }

  /** `path.join(".")`. */
  function PathText(path: seq<PathSegment>): string {
    Join(SegmentTexts(path), PathSeparator)
  }

  /** One issue as `"<path>: <message>"`. */
  function IssueText(e: Issue): string {
    PathText(e.path) + MessageSeparator + e.message
  }

  function IssueTexts(issues: seq<Issue>): (ts: seq<string>)
    ensures |ts| == |issues|
    ensures forall k :: 0 <= k < |issues| ==> ts[k] == IssueText(issues[k])
  {
    seq(|issues|, k requires 0 <= k < |issues| => IssueText(issues[k]))
  }

  /** The validation-error formatter: every issue's text, in the order the
      issues were collected, separated by `", "`. */
  function IssuesText(issues: seq<Issue>): string {
    Join(IssueTexts(issues), IssueSeparator)
  }

  /** A path is written segment by segment with a dot between neighbours:
      no segments give the empty text, one segment its own text, and a
      longer path its first segment, a dot, and the rest of the path. */
  lemma PathTextShape(path: seq<PathSegment>)
    ensures |path| == 0 ==> PathText(path) == ""
    ensures |path| == 1 ==> PathText(path) == SegmentText(path[0])
    ensures |path| > 1 ==> PathText(path) == SegmentText(path[0]) + PathSeparator + PathText(path[1..])
  {
    if |path| > 1 {
      assert SegmentTexts(path)[1..] == SegmentTexts(path[1..]);
    }
  }

  /** An issue's text is its path text, then `": "`, then its message, so
      each piece can be read back by position. */
  lemma IssueTextParts(e: Issue)
    ensures |IssueText(e)| == |PathText(e.path)| + |MessageSeparator| + |e.message|
    ensures IssueText(e)[..|PathText(e.path)|] == PathText(e.path)
    ensures IssueText(e)[|PathText(e.path)| .. |PathText(e.path)| + |MessageSeparator|] == MessageSeparator
    ensures IssueText(e)[|PathText(e.path)| + |MessageSeparator| ..] == e.message
  {
  }

  /** The formatted list is as long as the issue texts plus one `", "`
      between each pair of neighbours; no issues give the empty text and a
      single issue gives its own text. */
  lemma IssuesTextLength(issues: seq<Issue>)
    ensures |issues| == 0 ==> IssuesText(issues) == ""
    ensures |issues| == 1 ==> IssuesText(issues) == IssueText(issues[0])
    ensures |issues| > 0 ==>
              |IssuesText(issues)| == SumLengths(IssueTexts(issues)) + (|issues| - 1) * |IssueSeparator|
  {
    if |issues| > 0 {
      JoinLength(IssueTexts(issues), IssueSeparator);
    }
  }

  /** Every issue is reported, in collection order: issue `i`'s text sits at
      its offset in the formatted list, followed by `", "` unless it is the
      last one. */
  lemma ReportsEveryIssue(issues: seq<Issue>, i: nat)
    requires i < |issues|
    ensures PlacedAt(IssuesText(issues), IssueText(issues[i]), Offset(IssueTexts(issues), IssueSeparator, i))
    ensures i + 1 < |issues| ==>
              PlacedAt(IssuesText(issues), IssueSeparator,
                       Offset(IssueTexts(issues), IssueSeparator, i) + |IssueText(issues[i])|)
  {
    var ts := IssueTexts(issues);
    JoinPlaced(ts, IssueSeparator, i);
    assert ts[i] == IssueText(issues[i]);
  }

  /** A one-key path is written as the key alone. */
  lemma SingleKeyPath(name: string)
    ensures PathText([Key(name)]) == name
  {
  }
}
